=== FILE: README.md ===
# media_meta_inspector: the metadata extractor in Dafny

This project models the decision logic of `get_mp3_metadata` in `main.py`. That is the part
between the download and the mutagen parsers. The model covers three steps:

- picking a container parser from the lower-case extension token;
- running that parser, then retrying once with the auto-detecting `File` parser when the
  first result has no `info`;
- turning the outcome into the five report entries (`file_size`, `duration`, `channels`,
  `sample_rate`, `bitrate`) or into a single `error` entry.

The parsers are an oracle `parse: ParserKind -> ParseResult`. A `ParseResult` is one of:

- `Empty`: no object, no `info`, or `info is None`;
- `Info(StructInfo)`: the `info` object, with each attribute optional;
- `HeaderNotFound`: mutagen's `HeaderNotFoundError` was raised;
- `Failed(msg)`: any other exception was raised.

Modules:

- `Wrappers`: `Option`, with `GetOr` as the `dict.get` default of the content-length lookup.
- `Decimal`: `str(int)` and `f"{n:02d}"`, plus parsers that read these back. The parsers are
  the partners the normalisation is proved against.
- `Formats`: the parser kinds and the extension dispatch table.
- `Fields`: `StructInfo` and the normalisation of duration, channels, sample rate and bitrate.
- `Extractor`: the parse oracle, the report, the primary/retry selection and the exception
  handlers.
- `Session`: how far the transfer got, the size-probe default, the outer error record and the
  temporary file's removal.

## Quirks of the code that the model keeps

- A missing `channels` attribute gives `"Unknown channels"`, not `"Unknown"`. The `getattr`
  default `"Unknown"` goes through the same f-string as a number (main.py:73-80).
- The bitrate is `"Unknown"` whenever `bitrate // 1000` is 0, so 1..999 bit/s gives
  `"Unknown"`, not `"0 kbps"`. A negative bitrate gives a negative kbps, e.g. `-1 kbps`
  (main.py:86-90, 99).
- `HeaderNotFoundError` is caught around both parser calls, so a generic retry that raises it
  also gives the degraded report (main.py:146-154).
- An `info` object that lacks some attributes is not retried. It is normalised as it is: a
  missing length, sample rate or bitrate becomes "Unknown", and a missing channel count becomes
  "Unknown channels" (main.py:57).
- When the extension is unknown, the primary parser is already `File`. An empty result still
  triggers the retry, so `File` runs twice (main.py:54-55, 104).
- An unparseable `content-length` header does not become 0. `int()` raises, and the outer
  handler returns `"Error retrieving metadata: …"` (main.py:21, 163-164). Only a missing header
  defaults to 0.

## Model

| member | source | states |
|---|---|---|
| Formats.Dispatch | main.py:43-55 | The dispatch table in both directions: `.mp3` gives MP3, `.m4a`/`.mp4` give MP4, then `.flac`, `.ogg` and `.wav`; every other token, the empty one included, gives the generic `File` parser |
| Decimal.NatToString | main.py:68 | `str(n)` for n >= 0 is a non-empty run of digits with no leading zero |
| Decimal.ParseNatOfNatToString | main.py:68 | The digits of n read back as n |
| Decimal.ParseIntOfIntToString | main.py:79 | `str(n)` of any int reads back as n |
| Decimal.IntToStringInjective | main.py:79 | Distinct integers give distinct text |
| Decimal.IntToString | main.py:79 | `str(n)`: a leading '-' exactly for negatives, then a non-empty run of digits with no leading zero unless n is 0; `ParseIntOfIntToString` pins the value |
| Decimal.ZeroPad2 | main.py:68 | `:02d` gives exactly two digits for 0..99 and at least two characters always; `ParseIntOfZeroPad2` pins the value |
| Decimal.ParseIntOfZeroPad2 | main.py:68 | `:02d` padding keeps the value readable; values 0..99 become exactly two digits |
| Fields.DivMod | main.py:67 | `divmod(l, 60)` gives an integral quotient and a remainder in [0, 60) with `l == 60*q + r` |
| Fields.Trunc | main.py:68 | `int()` of a float rounds toward zero: for x >= 0 the result n has n <= x < n + 1, for x < 0 it has n - 1 < x <= n |
| Fields.DurationText | main.py:66-70 | A missing length gives "Unknown"; the text of a present length is given by `DurationTextMeaning` |
| Fields.DivModTruncParts | main.py:67-68 | `int(minutes)` and `int(seconds)` are the whole minutes of floor(l) and the remaining whole seconds |
| Fields.DurationTextMeaning | main.py:66-70 | A present length l gives `M:SS` with M = floor(l) div 60 and SS = floor(l) mod 60, which is in 0..59 and padded to two digits; minutes never roll into hours |
| Fields.DurationTruncates | main.py:67-68 | Lengths with the same whole seconds give the same text: truncation, not rounding |
| Fields.DurationTextIsNotAMarker | main.py:66-70 | A known duration is never "Unknown" and never "Unknown (headers not found)" |
| Fields.DurationExamples | main.py:66-70 | 125.7 s is `2:05`, 59.99 s is `0:59`, 3600 s is `60:00`, 185.4 s is `3:05` |
| Fields.ChannelText | main.py:73-80 | The channel text is never plain "Unknown"; its exact forms are stated by `ChannelTextReadsBack` |
| Fields.ChannelTextReadsBack | main.py:73-80 | The text is "Mono" exactly for 1 and "Stereo" exactly for 2; any other n is exactly `str(n)` + " channels"; a missing attribute is "Unknown channels"; each text reads back as its attribute |
| Fields.ChannelTextInjective | main.py:73-80 | Different channel attributes give different texts, and no channel text is plain "Unknown" |
| Fields.SampleRateText | main.py:83-98 | "Unknown" exactly when the attribute is absent; the exact "n Hz" form is stated by `SampleRateTextReadsBack` |
| Fields.SampleRateTextReadsBack | main.py:96-98 | A present rate n is exactly `str(n)` + " Hz" and reads back unchanged; the text is "Unknown" exactly when the attribute is absent |
| Fields.SampleRateExample | main.py:96-98 | 44100 Hz renders as "44100 Hz" |
| Fields.BitrateText | main.py:86-99 | "Unknown" exactly when the bitrate is absent or in 0..999; the exact "k kbps" form is stated by `BitrateTextMeaning` |
| Fields.BitrateTextMeaning | main.py:86-99 | "Unknown" exactly when the bitrate is absent or in 0..999; otherwise exactly `str(b // 1000)` + " kbps", whose k is non-zero with k*1000 <= b < (k+1)*1000 |
| Fields.BitrateExample | main.py:86-99 | 192000 gives "192 kbps"; 999, 0 and absent give "Unknown" |
| Extractor.Describe | main.py:92-100 | A usable info object gives a metadata report whose file size is the probe's total |
| Extractor.Degraded | main.py:148-154 | The degraded report is a metadata report with the probe's total as file size |
| Extractor.Conclude | main.py:92-157 | An outcome becomes an error record exactly when it is empty or an exception other than a missing header; a metadata report carries the probe's total. Per-outcome results are stated by `PrimaryOutcomeIsFinal`, `DegradedIffHeaderNotFound` and `ErrorMessages` |
| Extractor.Decisive | main.py:57-104 | The outcome that decides the report is empty exactly when both the primary parse and the generic retry are empty |
| Extractor.Extract | main.py:43-157 | The dispatched parser runs first. Exactly one retry happens, with `File`, and only when the primary result is empty. A metadata report's file size is the probe's total. The result is an error record exactly when the deciding outcome is empty or an exception other than a missing header |
| Extractor.PrimaryOutcomeIsFinal | main.py:44-157 | A non-empty primary result is never re-parsed: a missing header gives the degraded report, another exception m gives "Error extracting metadata: " + m, and a usable info gives its normalised report, each after exactly one parser call, whatever `File` would return |
| Extractor.ReportDependsOnlyOnAttempts | main.py:43-145 | Two parser oracles that agree on every recorded call give the same run: the report depends on no parser call that is not recorded |
| Extractor.ErrorKeyIffError | main.py:181-189 | The caller's `"error" in metadata` test holds exactly for error records; a metadata report has five keys, none of them `error` |
| Extractor.DescribeReadsBack | main.py:92-100 | Each entry of a normalised report reads back as the info attribute it came from: whole minutes and seconds, channels, sample rate, and a bitrate that is "Unknown" exactly when absent or in 0..999 and otherwise reads back as `b // 1000` |
| Extractor.DescribeIsNotDegraded | main.py:146-154 | A normalised report never has the header-not-found duration or a plain "Unknown" channel text |
| Extractor.DegradedIffHeaderNotFound | main.py:146-154 | The duration is "Unknown (headers not found)" exactly when `HeaderNotFoundError` decides the outcome, from either attempt; the other three fields are then "Unknown" and the file size is the probe's total |
| Extractor.ErrorMessages | main.py:142-157 | The fixed "Could not extract metadata…" message appears exactly when both attempts are empty. "Error extracting metadata: " + m appears exactly when the deciding parser raised m |
| Extractor.InfoIsNormalised | main.py:101-141 | A usable info object from the primary parse or from the retry gets the same normalisation |
| Extractor.FallbackIsAuthoritative | main.py:101-141 | When the primary parse is empty, the report equals the one a parser that directly returned the retry's result would give |
| Extractor.GenericRunsTwiceForUnknownExtension | main.py:54-104 | For an unknown extension whose parse is empty, `File` is called twice and the result is the fixed error record |
| Extractor.StereoMp3Example | main.py:44-100 | A 5242880-byte `.mp3` with a 185.4 s, 2-channel, 44100 Hz, 192000 bit/s stream reports `3:05`, `Stereo`, `44100 Hz`, `192 kbps` after one parser call |
| Session.TotalSize | main.py:21 | A missing content-length counts as 0; a present one is used as is |
| Session.GetMetadataAsWritten | main.py:17-164 | As written, the temporary file exists exactly when the transfer got past the requests, and it is removed only after a completed download; `InterruptedDownloadLeavesTempFile` gives the failing case |
| Session.InterruptedDownloadLeavesTempFile | main.py:33-41 | As written, a failure while streaming the body returns an error record and leaves the temporary file on disk |
| Session.GetMetadata | main.py:17-164 | The corrected run has the same report, parser calls and temporary-file creation as the code as written; only the removal differs |
| Session.NoTempFileLeft | main.py:158-161 | In the corrected run, a temporary file that was created is always removed |
| Session.TransferDecidesExtraction | main.py:41-164 | A failed transfer calls no parser and gives "Error retrieving metadata: " + cause. A completed one returns exactly the extractor's report and parser calls, for the extension and the probe's total |
| Session.MissingSizeIsNotAnError | main.py:21 | A missing content-length header does not stop extraction; it runs with a file size of 0 |

## Left out

- The HTTP HEAD and GET requests, their timeouts, and the chunked `iter_content` loop
  (main.py:20-26, 36-38) are network I/O. `Session.Transfer` records only how far the
  transfer got.
- `urlparse` and `Path(...).suffix.lower()` (main.py:29-30) are library code. The extension
  token is an input, already in lower case.
- The mutagen parsers `MP3`, `MP4`, `FLAC`, `OggVorbis`, `WAVE` and `File` are foreign code.
  They are the `parse` oracle. It is deterministic, so both `File` calls on one file agree.
- The `:.2f` megabyte rendering of `total_size / 1048576` (main.py:23, 93) is float
  formatting. `Report.fileSize` holds the byte count it is computed from.
- Fields.DivMod: the length is an exact real. The rounding of IEEE doubles in `divmod` and
  in the length itself is not modelled.
- The debug and progress prints, the timing, the argument check, and the title-cased printing
  of keys (main.py:23, 63, 112, 147, 156, 167-193) are user interface.
- Exceptions that do not derive from `Exception`, such as `KeyboardInterrupt`, are not modelled.

## Findings

| source | as written | input that shows it | evidently intended | confidence | as-written member | corrected member |
|---|---|---|---|---|---|---|
| main.py:33-41 | The temporary file is opened with `delete=False` before the body is streamed. The `try`/`finally` that removes it starts only at line 41, after the download. | A download whose body stream raises after the temporary file is opened, e.g. a connection reset mid-transfer | The temporary file is removed on every exit path, including a failed download | medium, not executed | Session.GetMetadataAsWritten, Session.InterruptedDownloadLeavesTempFile | Session.GetMetadata, Session.NoTempFileLeft |

=== FILE: decimal.dfy ===
/**
 Decimal rendering of integers as Python's `str(int)` and `f"{n:02d}"` produce it,
 together with the parsers that read such text back. The parsers are the partners
 of the renderers: every rendering is proved to read back as the number it came from.
 */
module Decimal {
  import opened Wrappers

  predicate IsDigit(c: char) {
    '0' <= c <= '9'
  }

  predicate AllDigits(s: string) {
    forall i :: 0 <= i < |s| ==> IsDigit(s[i])
  }

  function DigitValue(c: char): (d: nat)
    requires IsDigit(c)
    ensures d < 10
  {
    c as int - '0' as int
  }

  function DigitChar(d: nat): (c: char)
    requires d < 10
    ensures IsDigit(c) && DigitValue(c) == d
  {
    ('0' as int + d) as char
  }

  /** `str(n)` for n >= 0: the digits of `n`, most significant first, without leading zeros. */
  function NatToString(n: nat): (s: string)
    ensures |s| >= 1 && AllDigits(s)
    ensures s[0] == '0' ==> n == 0
    ensures n < 10 <==> |s| == 1
    decreases n
  {
    if n < 10 then [DigitChar(n)] else NatToString(n / 10) + [DigitChar(n % 10)]
  }

  /** `str(n)` for any int: a minus sign in front of the magnitude's digits when negative. */
  function IntToString(n: int): (s: string)
    ensures |s| >= 1
    ensures s[0] == '-' <==> n < 0
    ensures n >= 0 ==> AllDigits(s)
    ensures var digits := if n < 0 then s[1..] else s;
      |digits| >= 1 && AllDigits(digits) && (digits[0] == '0' ==> n == 0)
  {
    if n < 0 then "-" + NatToString(-n) else NatToString(n)
  }

  /** `f"{n:02d}"`: zero-padded to a width of two; wider values and negatives are left as they are. */
  function ZeroPad2(n: int): (s: string)
    ensures 0 <= n < 100 ==> |s| == 2 && AllDigits(s)
    ensures |s| >= 2
  {
    if 0 <= n < 10 then "0" + IntToString(n) else IntToString(n)
  }

  /** Reads a non-empty run of decimal digits (leading zeros allowed); anything else is `None`. */
  function ParseNat(s: string): (r: Option<nat>)
    ensures r.Some? <==> |s| >= 1 && AllDigits(s)
  {
    if |s| == 0 || !IsDigit(s[|s| - 1]) then None
    else if |s| == 1 then Some(DigitValue(s[0]))
    else
      match ParseNat(s[..|s| - 1])
      case None => None
      case Some(p) => Some(10 * p + DigitValue(s[|s| - 1]))
  }

  /** Reads an optionally negated run of decimal digits. */
  function ParseInt(s: string): (r: Option<int>)
    ensures r.Some? <==>
      (|s| >= 1 && s[0] != '-' && AllDigits(s)) || (|s| >= 2 && s[0] == '-' && AllDigits(s[1..]))
  {
    if |s| >= 1 && s[0] == '-' then
      match ParseNat(s[1..])
      case None => None
      case Some(v) => Some(-(v as int))
    else
      match ParseNat(s)
      case None => None
      case Some(v) => Some(v)
  }

  lemma {:induction false} ParseNatOfNatToString(n: nat)
    ensures ParseNat(NatToString(n)) == Some(n)
    decreases n
  {
    if n >= 10 {
      var s := NatToString(n);
      assert s[..|s| - 1] == NatToString(n / 10);
      ParseNatOfNatToString(n / 10);
    }
  }

  lemma ParseIntOfIntToString(n: int)
    ensures ParseInt(IntToString(n)) == Some(n)
  {
    if n < 0 {
      ParseIntOfNegated(-n);
    } else {
      ParseNatOfNatToString(n);
    }
  }

  lemma ParseIntOfNegated(m: nat)
    requires m > 0
    ensures ParseInt("-" + NatToString(m)) == Some(-(m as int))
  {
    var digits := NatToString(m);
    var s := "-" + digits;
    assert s[0] == '-' && s[1..] == digits;
    ParseNatOfNatToString(m);
  }

  /** Distinct integers always render as distinct text. */
  lemma IntToStringInjective(a: int, b: int)
    ensures IntToString(a) == IntToString(b) <==> a == b
  {
    ParseIntOfIntToString(a);
    ParseIntOfIntToString(b);
  }

  /** The padded rendering still reads back as the number it came from. */
  lemma ParseIntOfZeroPad2(n: int)
    ensures ParseInt(ZeroPad2(n)) == Some(n)
  {
    if 0 <= n < 10 {
      var s := ZeroPad2(n);
      assert s == ['0', DigitChar(n)];
      assert s[..|s| - 1] == "0";
      assert ParseNat("0") == Some(0);
    } else {
      ParseIntOfIntToString(n);
    }
  }
}

=== FILE: extractor.dfy ===
/**
 The metadata extractor: dispatch to a parser, one generic retry when the primary
 parse yields no structural info, and conversion of every parse outcome into either a
 metadata report or an error record. The mutagen parsers are an oracle `parse` from
 parser kind to outcome; the file they read is fixed for the whole extraction.
 */
module Extractor {
  import opened Wrappers
  import opened Decimal
  import opened Formats
  import opened Fields

  /** What one parser call produces. */
  datatype ParseResult =
    | Empty                       // no object, no `info` attribute, or `info is None`
    | Info(info: StructInfo)      // an `info` object with whichever attributes it has
    | HeaderNotFound              // mutagen's HeaderNotFoundError was raised
    | Failed(message: string)     // any other exception, with `str(e)`

  /**
   The dictionary the extractor returns: the five metadata entries, or the single `error` entry.
   `fileSize` is the size probe's byte count, `total_size`; its rendering as megabytes with two
   decimals is not part of this model.
   */
  datatype Report =
    | Meta(fileSize: int, duration: string, channels: string, sampleRate: string, bitrate: string)
    | Error(message: string)

  /** The report together with the parser kinds called, in order. */
  datatype Run = Run(report: Report, attempts: seq<ParserKind>)

  const HeadersNotFound: string := "Unknown (headers not found)"
  const NoMetadataMessage: string :=
    "Could not extract metadata. "
    + "The file may have non-standard formatting or may not be a valid audio file."
  const ParseErrorPrefix: string := "Error extracting metadata: "

  /** The five normalised entries built from a usable `info` object. */
  function Describe(totalSize: int, info: StructInfo): (r: Report)
    ensures r.Meta? && r.fileSize == totalSize
  {
    Meta(totalSize, DurationText(info.length), ChannelText(info.channels),
         SampleRateText(info.sampleRate), BitrateText(info.bitrate))
  }

  /** The degraded report for a missing MPEG frame header: only the file size is known. */
  function Degraded(totalSize: int): (r: Report)
    ensures r.Meta? && r.fileSize == totalSize
  {
    Meta(totalSize, HeadersNotFound, Unknown, Unknown, Unknown)
  }

  /** How the exception handlers and the empty-result branches turn an outcome into a report. */
  function Conclude(totalSize: int, outcome: ParseResult): (r: Report)
    ensures r.Error? <==> outcome.Empty? || outcome.Failed?
    ensures r.Meta? ==> r.fileSize == totalSize
  {
    match outcome
    case Info(info) => Describe(totalSize, info)
    case HeaderNotFound => Degraded(totalSize)
    case Failed(message) => Error(ParseErrorPrefix + message)
    case Empty => Error(NoMetadataMessage)
  }

  /** The outcome that decides the report: the primary one, or the retry's when the primary is empty. */
  function Decisive(ext: string, parse: ParserKind -> ParseResult): (d: ParseResult)
    ensures d.Empty? <==> parse(Dispatch(ext)).Empty? && parse(Generic).Empty?
  {
    var primary := parse(Dispatch(ext));
    if primary.Empty? then parse(Generic) else primary
  }

  /**
   `get_mp3_metadata` once the file is on disk: the parser chosen by the extension runs first;
   exactly one retry with the generic parser happens, and only when the first result is empty.
   */
  function Extract(ext: string, totalSize: int, parse: ParserKind -> ParseResult): (r: Run)
    ensures 1 <= |r.attempts| <= 2
    ensures r.attempts[0] == Dispatch(ext)
    ensures |r.attempts| == 2 <==> parse(Dispatch(ext)).Empty?
    ensures |r.attempts| == 2 ==> r.attempts[1] == Generic
    ensures r.report.Meta? ==> r.report.fileSize == totalSize
    ensures r.report.Error? <==> Decisive(ext, parse).Empty? || Decisive(ext, parse).Failed?
  {
    var kind := Dispatch(ext);
    match parse(kind)
    case Empty =>
      var retry := parse(Generic);
      Run(Conclude(totalSize, retry), [kind, Generic])
    case primary =>
      Run(Conclude(totalSize, primary), [kind])
  }

  /**
   A non-empty primary result is final: a missing header gives the degraded report, any other
   exception its error record, and a usable info object its normalised report, whatever the
   generic parser would have returned.
   */
  lemma PrimaryOutcomeIsFinal(ext: string, totalSize: int, parse: ParserKind -> ParseResult)
    ensures var p := parse(Dispatch(ext)); var r := Extract(ext, totalSize, parse);
      && (p.HeaderNotFound? ==> r == Run(Degraded(totalSize), [Dispatch(ext)]))
      && (p.Failed? ==> r == Run(Error(ParseErrorPrefix + p.message), [Dispatch(ext)]))
      && (p.Info? ==> r == Run(Describe(totalSize, p.info), [Dispatch(ext)]))
  {
  }

  /** The run is decided by the results of the parsers it records calling, and by nothing else. */
  lemma ReportDependsOnlyOnAttempts(ext: string, totalSize: int,
                                    p: ParserKind -> ParseResult, q: ParserKind -> ParseResult)
    requires forall k :: k in Extract(ext, totalSize, p).attempts ==> p(k) == q(k)
    ensures Extract(ext, totalSize, p) == Extract(ext, totalSize, q)
  {
    assert Dispatch(ext) in Extract(ext, totalSize, p).attempts;
  }

  /** The dictionary keys of a report: the five metadata keys, or `error` alone. */
  function Keys(r: Report): set<string>
  {
    match r
    case Meta(_, _, _, _, _) => {"file_size", "duration", "channels", "sample_rate", "bitrate"}
    case Error(_) => {"error"}
  }

  /** The caller's test `"error" in metadata` picks out exactly the error records. */
  lemma ErrorKeyIffError(r: Report)
    ensures "error" in Keys(r) <==> r.Error?
    ensures r.Meta? ==> |Keys(r)| == 5
  {
    if r.Meta? {
      assert "error" != "file_size" && "error" != "duration" && "error" != "channels";
      assert "error" != "sample_rate" && "error" != "bitrate";
      assert "file_size" != "duration" && "file_size" != "channels" && "file_size" != "sample_rate";
      assert "file_size" != "bitrate" && "duration" != "channels" && "duration" != "sample_rate";
      assert "duration" != "bitrate" && "channels" != "sample_rate" && "channels" != "bitrate";
      assert "sample_rate" != "bitrate";
    }
  }

  /** A normalised report says what the info holds: each field reads back as its attribute. */
  lemma DescribeReadsBack(totalSize: int, info: StructInfo)
    ensures var r := Describe(totalSize, info);
      && (info.length.None? ==> r.duration == Unknown)
      && (info.length.Some? ==>
            ParseDuration(r.duration) == Some((info.length.value.Floor / 60, info.length.value.Floor % 60)))
      && ParseChannels(r.channels) == Some(info.channels)
      && ParseSampleRate(r.sampleRate) == Some(info.sampleRate)
      && (r.bitrate == Unknown <==> info.bitrate.None? || 0 <= info.bitrate.value < 1000)
      && (r.bitrate != Unknown ==> ParseKbps(r.bitrate) == Some(info.bitrate.value / 1000))
  {
    if info.length.Some? {
      DurationTextMeaning(info.length.value);
    }
    ChannelTextReadsBack(info.channels);
    SampleRateTextReadsBack(info.sampleRate);
    BitrateTextMeaning(info.bitrate);
  }

  /** A normalised report is never mistaken for the degraded one. */
  lemma DescribeIsNotDegraded(totalSize: int, info: StructInfo)
    ensures Describe(totalSize, info).duration != HeadersNotFound
    ensures Describe(totalSize, info).channels != Unknown
  {
    if info.length.Some? {
      DurationTextIsNotAMarker(info.length.value, HeadersNotFound);
    }
    ChannelTextInjective(info.channels, info.channels);
  }

  /**
   The degraded report appears exactly when a HeaderNotFoundError decides the outcome, from the
   primary parser or from the retry, and then every field but the file size is unknown.
   */
  lemma DegradedIffHeaderNotFound(ext: string, totalSize: int, parse: ParserKind -> ParseResult)
    ensures var r := Extract(ext, totalSize, parse).report;
      (r.Meta? && r.duration == HeadersNotFound) <==> Decisive(ext, parse).HeaderNotFound?
    ensures var r := Extract(ext, totalSize, parse).report;
      Decisive(ext, parse).HeaderNotFound? ==>
        r.Meta? && r.fileSize == totalSize
        && r.channels == Unknown && r.sampleRate == Unknown && r.bitrate == Unknown
  {
    var d := Decisive(ext, parse);
    if d.Info? {
      DescribeIsNotDegraded(totalSize, d.info);
    }
  }

  /**
   An error record carries the fixed message exactly when both attempts were empty, and the
   exception's text behind the fixed prefix exactly when a parser raised anything else.
   */
  lemma ErrorMessages(ext: string, totalSize: int, parse: ParserKind -> ParseResult)
    ensures var r := Extract(ext, totalSize, parse).report;
      r == Error(NoMetadataMessage) <==> parse(Dispatch(ext)).Empty? && parse(Generic).Empty?
    ensures var r := Extract(ext, totalSize, parse).report;
      forall m :: r == Error(ParseErrorPrefix + m) <==> Decisive(ext, parse) == Failed(m)
  {
    assert ("Could not extract metadata. ")[0] == 'C';
    assert NoMetadataMessage[0] == 'C' && ParseErrorPrefix[0] == 'E';
    forall m
      ensures ParseErrorPrefix + m != NoMetadataMessage
    {
      assert (ParseErrorPrefix + m)[0] == 'E';
    }
    forall m, m' | ParseErrorPrefix + m == ParseErrorPrefix + m'
      ensures m == m'
    {
      assert (ParseErrorPrefix + m)[|ParseErrorPrefix|..] == m;
      assert (ParseErrorPrefix + m')[|ParseErrorPrefix|..] == m';
    }
  }

  /** A usable info object, from either attempt, yields the normalised five entries. */
  lemma InfoIsNormalised(ext: string, totalSize: int, parse: ParserKind -> ParseResult)
    requires Decisive(ext, parse).Info?
    ensures Extract(ext, totalSize, parse).report == Describe(totalSize, Decisive(ext, parse).info)
  {
  }

  /**
   When the primary parse is empty the retry is authoritative: the report is the one a parser that
   returned the retry's result directly would have led to.
   */
  lemma FallbackIsAuthoritative(ext: string, totalSize: int, parse: ParserKind -> ParseResult)
    requires parse(Dispatch(ext)).Empty?
    ensures
      var direct := (k: ParserKind) => if k == Dispatch(ext) then parse(Generic) else parse(k);
      Extract(ext, totalSize, parse).report == Extract(ext, totalSize, direct).report
  {
  }

  /** The retry runs even when the primary parser was already the generic one. */
  lemma GenericRunsTwiceForUnknownExtension(ext: string, totalSize: int, parse: ParserKind -> ParseResult)
    requires ext !in KnownExtensions && parse(Generic).Empty?
    ensures Extract(ext, totalSize, parse).attempts == [Generic, Generic]
    ensures Extract(ext, totalSize, parse).report == Error(NoMetadataMessage)
  {
  }

  /** A 5 MiB MP3 with a 185.4-second stereo stream at 44100 Hz and 192000 bit/s. */
  lemma StereoMp3Example(parse: ParserKind -> ParseResult)
    requires parse(Mp3) == Info(StructInfo(Some(185.4), Some(2), Some(44100), Some(192000)))
    ensures Extract(".mp3", 5242880, parse)
         == Run(Meta(5242880, "3:05", "Stereo", "44100 Hz", "192 kbps"), [Mp3])
  {
    var info := StructInfo(Some(185.4), Some(2), Some(44100), Some(192000));
    DurationExamples();
    SampleRateExample();
    BitrateExample();
    assert ChannelText(info.channels) == "Stereo";
  }
}

=== FILE: fields.dfy ===
/**
 The structural info a parser yields and the normalisation of each field into the
 human-oriented text of the report. Each text has a reader that recovers what the text
 says, and each normalisation is proved against that reader.
 */
module Fields {
  import opened Wrappers
  import opened Decimal

  /** The attributes of mutagen's `info` object; `None` is an attribute the object does not have. */
  datatype StructInfo = StructInfo(
    length: Option<real>,
    channels: Option<int>,
    sampleRate: Option<int>,
    bitrate: Option<int>)

  const Unknown: string := "Unknown"
  const ChannelsSuffix: string := " channels"
  const HzSuffix: string := " Hz"
  const KbpsSuffix: string := " kbps"

  /** Python's `divmod(x, y)` on floats with y > 0, taken over exact reals: floored quotient and its remainder. */
  function DivMod(x: real, y: real): (qm: (real, real))
    requires y > 0.0
    ensures qm.0 == qm.0.Floor as real
    ensures 0.0 <= qm.1 < y
    ensures x == y * qm.0 + qm.1
  {
    var q := (x / y).Floor as real;
    RemainderBounds(x, y, q);
    (q, x - y * q)
  }

  lemma RemainderBounds(x: real, y: real, q: real)
    requires y > 0.0 && q <= x / y < q + 1.0
    ensures 0.0 <= x - y * q < y
  {
    var t := x / y - q;
    assert x == y * (x / y);
    assert x - y * q == y * t;
    ScaleUnitInterval(y, t);
  }

  lemma ScaleUnitInterval(y: real, t: real)
    requires y > 0.0 && 0.0 <= t < 1.0
    ensures 0.0 <= y * t < y
  {
  }

  /** Python's `int(x)` on a float: rounds toward zero. */
  function Trunc(x: real): (n: int)
    ensures x >= 0.0 ==> 0 <= n && n as real <= x < n as real + 1.0
    ensures x < 0.0 ==> n <= 0 && n as real - 1.0 < x <= n as real
  {
    if x >= 0.0 then x.Floor else -((-x).Floor)
  }

  /** `f"{int(minutes)}:{int(seconds):02d}"` of `divmod(length, 60)`, or "Unknown" without a length. */
  function DurationText(length: Option<real>): (s: string)
    ensures length.None? ==> s == Unknown
  {
    match length
    case None => Unknown
    case Some(l) =>
      var (minutes, seconds) := DivMod(l, 60.0);
      IntToString(Trunc(minutes)) + ":" + ZeroPad2(Trunc(seconds))
  }

  /** Reads "M:SS" back as (M, SS); anything else is `None`. */
  function ParseDuration(s: string): Option<(int, int)>
  {
    if |s| >= 4 && s[|s| - 3] == ':' then
      match (ParseInt(s[..|s| - 3]), ParseNat(s[|s| - 2..]))
      case (Some(m), Some(sec)) => Some((m, sec))
      case _ => None
    else None
  }

  /** The divmod-and-truncate steps amount to whole minutes and remaining whole seconds of floor(l). */
  lemma DivModTruncParts(l: real)
    ensures Trunc(DivMod(l, 60.0).0) == l.Floor / 60
    ensures Trunc(DivMod(l, 60.0).1) == l.Floor % 60
  {
    var qm := DivMod(l, 60.0);
    var m := Trunc(qm.0);
    var sec := Trunc(qm.1);
    IntegralTrunc(qm.0);
    assert 0 <= sec < 60;
    WholePartsBracket(l, qm.0, qm.1, m, sec);
    FloorOfBracket(l, m * 60 + sec);
  }

  lemma IntegralTrunc(x: real)
    requires x == x.Floor as real
    ensures Trunc(x) as real == x
  {
    if x < 0.0 {
      var n := x.Floor;
      assert -x == (-n) as real;
      FloorOfBracket(-x, -n);
    }
  }

  lemma WholePartsBracket(l: real, q: real, r: real, m: int, sec: int)
    requires l == 60.0 * q + r && q == m as real
    requires sec as real <= r < (sec + 1) as real
    ensures (m * 60 + sec) as real <= l < (m * 60 + sec + 1) as real
  {
    assert (m * 60) as real == 60.0 * q;
  }

  lemma FloorOfBracket(x: real, n: int)
    requires n as real <= x < (n + 1) as real
    ensures x.Floor == n
  {
  }

  /**
   The duration text states the length's whole seconds exactly: M is the whole minutes and SS the
   remaining whole seconds of floor(length), zero-padded to two digits; SS is in 0..59 and the
   minutes never roll into hours.
   */
  lemma DurationTextMeaning(l: real)
    ensures DurationText(Some(l)) == IntToString(l.Floor / 60) + ":" + ZeroPad2(l.Floor % 60)
    ensures ParseDuration(DurationText(Some(l))) == Some((l.Floor / 60, l.Floor % 60))
    ensures 0 <= l.Floor % 60 < 60
  {
    DivModTruncParts(l);
    var s := DurationText(Some(l));
    var head := IntToString(l.Floor / 60);
    var tail := ZeroPad2(l.Floor % 60);
    assert s == head + ":" + tail;
    assert s[..|s| - 3] == head;
    assert s[|s| - 2..] == tail;
    ParseIntOfIntToString(l.Floor / 60);
    ParseNatOfNatToString(l.Floor % 60);
    ParseIntOfZeroPad2(l.Floor % 60);
  }

  /** Only the whole seconds of the length reach the text: it is truncated, never rounded up. */
  lemma DurationTruncates(a: real, b: real)
    requires a.Floor == b.Floor
    ensures DurationText(Some(a)) == DurationText(Some(b))
  {
    DurationTextMeaning(a);
    DurationTextMeaning(b);
  }

  /** A known duration never reads as "Unknown", nor as the header-not-found marker. */
  lemma DurationTextIsNotAMarker(l: real, marker: string)
    requires |marker| >= 3 && marker[|marker| - 3] != ':'
    ensures DurationText(Some(l)) != marker
  {
    DurationTextMeaning(l);
  }

  /** `s` with `suffix` removed from its end, when it ends with it. */
  function StripSuffix(s: string, suffix: string): (r: Option<string>)
    ensures r.Some? ==> r.value + suffix == s
  {
    if |s| >= |suffix| && s[|s| - |suffix|..] == suffix then Some(s[..|s| - |suffix|]) else None
  }

  lemma StripSuffixOfAppend(head: string, suffix: string)
    ensures StripSuffix(head + suffix, suffix) == Some(head)
  {
    var s := head + suffix;
    assert s[|s| - |suffix|..] == suffix;
    assert s[..|s| - |suffix|] == head;
  }

  /**
   The channel text of `channel_text` in main.py: 1 is "Mono", 2 is "Stereo", any other count n is "n channels";
   a missing attribute falls back to the string "Unknown", which is neither 1 nor 2, so it
   renders as "Unknown channels".
   */
  function ChannelText(channels: Option<int>): (s: string)
    ensures |s| >= 4
    ensures s != Unknown
  {
    if channels == Some(1) then "Mono"
    else if channels == Some(2) then "Stereo"
    else
      match channels
      case Some(n) => IntToString(n) + ChannelsSuffix
      case None => Unknown + ChannelsSuffix
  }

  /** Reads a channel text back as the attribute it describes; `None` when it is no channel text. */
  function ParseChannels(s: string): Option<Option<int>>
  {
    if s == "Mono" then Some(Some(1))
    else if s == "Stereo" then Some(Some(2))
    else
      match StripSuffix(s, ChannelsSuffix)
      case None => None
      case Some(head) =>
        if head == Unknown then Some(None)
        else
          match ParseInt(head)
          case Some(n) => Some(Some(n))
          case None => None
  }

  lemma IntToStringIsNotUnknown(n: int)
    ensures IntToString(n) != Unknown
  {
    assert Unknown[0] == 'U';
  }

  /** Every channel attribute, the missing one included, is recovered from its text. */
  lemma ChannelTextReadsBack(channels: Option<int>)
    ensures ChannelText(channels) == "Mono" <==> channels == Some(1)
    ensures ChannelText(channels) == "Stereo" <==> channels == Some(2)
    ensures channels.Some? && channels.value != 1 && channels.value != 2 ==>
      ChannelText(channels) == IntToString(channels.value) + ChannelsSuffix
    ensures channels.None? ==> ChannelText(channels) == "Unknown channels"
    ensures ParseChannels(ChannelText(channels)) == Some(channels)
  {
    if channels != Some(1) && channels != Some(2) {
      match channels
      case Some(n) =>
        var head := IntToString(n);
        StripSuffixOfAppend(head, ChannelsSuffix);
        IntToStringIsNotUnknown(n);
        ParseIntOfIntToString(n);
        assert |head + ChannelsSuffix| > 6;
      case None =>
        StripSuffixOfAppend(Unknown, ChannelsSuffix);
    }
  }

  /** Distinct channel attributes give distinct texts, and no channel text is plain "Unknown". */
  lemma ChannelTextInjective(a: Option<int>, b: Option<int>)
    ensures ChannelText(a) == ChannelText(b) <==> a == b
    ensures ChannelText(a) != Unknown
  {
    ChannelTextReadsBack(a);
    ChannelTextReadsBack(b);
    assert ParseChannels(Unknown) == None;
  }

  /** A text ending in a suffix whose last character differs from that of "Unknown" is not "Unknown". */
  lemma EndsDifferently(head: string, suffix: string)
    requires |suffix| >= 1 && suffix[|suffix| - 1] != 'n'
    ensures head + suffix != Unknown
  {
    var s := head + suffix;
    assert s[|s| - 1] == suffix[|suffix| - 1];
    assert Unknown[|Unknown| - 1] == 'n';
  }

  /** The `sample_rate` entry of main.py: a present rate n is "n Hz", an absent one "Unknown". */
  function SampleRateText(sampleRate: Option<int>): (s: string)
    ensures s == Unknown <==> sampleRate.None?
  {
    match sampleRate
    case Some(n) =>
      EndsDifferently(IntToString(n), HzSuffix);
      IntToString(n) + HzSuffix
    case None => Unknown
  }

  /** Reads a sample-rate text back as the attribute it describes; `None` when it is no such text. */
  function ParseSampleRate(s: string): Option<Option<int>>
  {
    if s == Unknown then Some(None)
    else
      match StripSuffix(s, HzSuffix)
      case None => None
      case Some(head) =>
        match ParseInt(head)
        case Some(n) => Some(Some(n))
        case None => None
  }

  /** The rate is reported unchanged: the text reads back as exactly the attribute. */
  lemma SampleRateTextReadsBack(sampleRate: Option<int>)
    ensures sampleRate.Some? ==> SampleRateText(sampleRate) == IntToString(sampleRate.value) + HzSuffix
    ensures ParseSampleRate(SampleRateText(sampleRate)) == Some(sampleRate)
    ensures SampleRateText(sampleRate) == Unknown <==> sampleRate.None?
  {
    if sampleRate.Some? {
      var n := sampleRate.value;
      StripSuffixOfAppend(IntToString(n), HzSuffix);
      ParseIntOfIntToString(n);
      assert SampleRateText(sampleRate) != Unknown by {
        assert SampleRateText(sampleRate)[|SampleRateText(sampleRate)| - 1] == 'z';
      }
    }
  }

  /**
   The `bitrate` entry of main.py: `bitrate // 1000` (0 when the attribute is missing) is
   reported as "k kbps" only when that quotient is truthy, i.e. non-zero. Dafny's `/` by a
   positive divisor is floor division, as Python's `//` is.
   */
  function BitrateText(bitrate: Option<int>): (s: string)
    ensures s == Unknown <==> bitrate.None? || 0 <= bitrate.value < 1000
  {
    var kbps := match bitrate case Some(b) => b / 1000 case None => 0;
    if kbps != 0 then
      EndsDifferently(IntToString(kbps), KbpsSuffix);
      IntToString(kbps) + KbpsSuffix
    else Unknown
  }

  /** Reads "k kbps" back as k; `None` for anything else, "Unknown" included. */
  function ParseKbps(s: string): Option<int>
  {
    match StripSuffix(s, KbpsSuffix)
    case None => None
    case Some(head) => ParseInt(head)
  }

  /**
   A bitrate is "Unknown" exactly when it is absent or in 0..999 bits per second; otherwise the
   text states a non-zero k with k * 1000 <= bitrate < (k + 1) * 1000.
   */
  lemma BitrateTextMeaning(bitrate: Option<int>)
    ensures BitrateText(bitrate) == Unknown <==> bitrate.None? || 0 <= bitrate.value < 1000
    ensures BitrateText(bitrate) != Unknown ==>
      BitrateText(bitrate) == IntToString(bitrate.value / 1000) + KbpsSuffix
    ensures BitrateText(bitrate) != Unknown ==>
      match ParseKbps(BitrateText(bitrate))
      case Some(k) => k != 0 && k * 1000 <= bitrate.value < k * 1000 + 1000
      case None => false
  {
    assert ParseKbps(Unknown) == None;
    if bitrate.Some? && !(0 <= bitrate.value < 1000) {
      var k := bitrate.value / 1000;
      assert k != 0;
      StripSuffixOfAppend(IntToString(k), KbpsSuffix);
      ParseIntOfIntToString(k);
    }
  }

  /** Sample lengths: truncation to whole seconds, and no rollover into hours. */
  lemma DurationExamples()
    ensures DurationText(Some(125.7)) == "2:05"
    ensures DurationText(Some(59.99)) == "0:59"
    ensures DurationText(Some(3600.0)) == "60:00"
    ensures DurationText(Some(185.4)) == "3:05"
  {
    DurationExample125();
    DurationExample59();
    DurationExample3600();
    DurationExample185();
  }

  lemma DurationExample125()
    ensures DurationText(Some(125.7)) == "2:05"
  {
    assert IntToString(2) == "2" && ZeroPad2(5) == "05";
    DurationExample(125.7, 125, "2:05");
  }

  lemma DurationExample59()
    ensures DurationText(Some(59.99)) == "0:59"
  {
    assert IntToString(0) == "0" && ZeroPad2(59) == "59";
    DurationExample(59.99, 59, "0:59");
  }

  lemma DurationExample3600()
    ensures DurationText(Some(3600.0)) == "60:00"
  {
    assert NatToString(6) == "6" && IntToString(60) == "60" && ZeroPad2(0) == "00";
    DurationExample(3600.0, 3600, "60:00");
  }

  lemma DurationExample185()
    ensures DurationText(Some(185.4)) == "3:05"
  {
    assert IntToString(3) == "3" && ZeroPad2(5) == "05";
    DurationExample(185.4, 185, "3:05");
  }

  lemma DurationExample(l: real, whole: int, text: string)
    requires whole as real <= l < (whole + 1) as real
    requires text == IntToString(whole / 60) + ":" + ZeroPad2(whole % 60)
    ensures DurationText(Some(l)) == text
  {
    FloorOfBracket(l, whole);
    DurationTextMeaning(l);
  }

  lemma SampleRateExample()
    ensures SampleRateText(Some(44100)) == "44100 Hz"
  {
    assert NatToString(44) == "44";
    assert NatToString(441) == "441";
    assert NatToString(4410) == "4410";
    assert NatToString(44100) == "44100";
  }

  lemma BitrateExample()
    ensures BitrateText(Some(192000)) == "192 kbps"
    ensures BitrateText(Some(999)) == Unknown
    ensures BitrateText(Some(0)) == Unknown && BitrateText(None) == Unknown
  {
    assert NatToString(19) == "19";
    assert NatToString(192) == "192";
  }
}

=== FILE: formats.dfy ===
/** Selection of the container parser from the lowercase file-extension token. */
module Formats {

  /** The six mutagen entry points the extractor can call; `Generic` is the auto-detecting `File`. */
  datatype ParserKind = Mp3 | Mp4 | Flac | OggVorbis | Wave | Generic

  /** The extensions that select a format-specific parser; every other token selects `Generic`. */
  const KnownExtensions: set<string> := {".mp3", ".m4a", ".mp4", ".flac", ".ogg", ".wav"}

  /**
   The closed decision table of the extractor. The token is compared exactly: it is already
   lower-cased by the caller, and the empty token (a path without a suffix) is not special.
   */
  function Dispatch(ext: string): (k: ParserKind)
    ensures k == Mp3 <==> ext == ".mp3"
    ensures k == Mp4 <==> ext == ".m4a" || ext == ".mp4"
    ensures k == Flac <==> ext == ".flac"
    ensures k == OggVorbis <==> ext == ".ogg"
    ensures k == Wave <==> ext == ".wav"
    ensures k == Generic <==> ext !in KnownExtensions
  {
    if ext == ".mp3" then Mp3
    else if ext == ".m4a" || ext == ".mp4" then Mp4
    else if ext == ".flac" then Flac
    else if ext == ".ogg" then OggVorbis
    else if ext == ".wav" then Wave
    else Generic
  }

}

=== FILE: session.dfy ===
/**
 One run of `get_mp3_metadata` around the extractor: the transfer's outcome (network I/O is
 not modelled, only how far it got), the size probe's default, the outer error record, and
 whether the temporary file is left on disk afterwards.
 */
module Session {
  import opened Wrappers
  import opened Formats
  import opened Extractor

  /** How far the transfer got. */
  datatype Transfer =
    | RequestFailed(cause: string)   // the HEAD request, its content-length conversion, or the GET raised
    | StreamFailed(cause: string)    // reading or writing the body raised after the temporary file was opened
    | Downloaded(contentLength: Option<int>, ext: string)

  /** The returned dictionary, the parsers called, and the temporary file's fate. */
  datatype Outcome = Outcome(report: Report, attempts: seq<ParserKind>, tempCreated: bool, tempRemoved: bool)

  const RetrieveErrorPrefix: string := "Error retrieving metadata: "

  /** The size probe's total: a missing content-length header counts as 0, not as a failure. */
  function TotalSize(contentLength: Option<int>): (n: int)
    ensures contentLength.None? ==> n == 0
    ensures contentLength.Some? ==> n == contentLength.value
  {
    contentLength.GetOr(0)
  }

  /**
   The function as written: the temporary file is opened with `delete=False` before the body is
   streamed, but the `finally` that removes it only guards the parse, so a failure while
   streaming leaves the file behind.
   */
  function GetMetadataAsWritten(transfer: Transfer, parse: ParserKind -> ParseResult): (o: Outcome)
    ensures o.tempCreated <==> !transfer.RequestFailed?
    ensures o.tempRemoved <==> transfer.Downloaded?
  {
    match transfer
    case RequestFailed(cause) => Outcome(Error(RetrieveErrorPrefix + cause), [], false, false)
    case StreamFailed(cause) => Outcome(Error(RetrieveErrorPrefix + cause), [], true, false)
    case Downloaded(contentLength, ext) =>
      var run := Extract(ext, TotalSize(contentLength), parse);
      Outcome(run.report, run.attempts, true, true)
  }

  /** An interrupted download returns its error record and leaves the temporary file on disk. */
  lemma InterruptedDownloadLeavesTempFile(cause: string, parse: ParserKind -> ParseResult)
    ensures var o := GetMetadataAsWritten(StreamFailed(cause), parse);
      o.tempCreated && !o.tempRemoved && o.report.Error?
  {
  }

  /**
   The intended behaviour: the removal guards everything after the temporary file is opened, the
   download included. Reports and parser calls are those of the function as written.
   */
  function GetMetadata(transfer: Transfer, parse: ParserKind -> ParseResult): (o: Outcome)
    ensures o.report == GetMetadataAsWritten(transfer, parse).report
    ensures o.attempts == GetMetadataAsWritten(transfer, parse).attempts
    ensures o.tempCreated == GetMetadataAsWritten(transfer, parse).tempCreated
  {
    match transfer
    case RequestFailed(cause) => Outcome(Error(RetrieveErrorPrefix + cause), [], false, false)
    case StreamFailed(cause) => Outcome(Error(RetrieveErrorPrefix + cause), [], true, true)
    case Downloaded(contentLength, ext) =>
      var run := Extract(ext, TotalSize(contentLength), parse);
      Outcome(run.report, run.attempts, true, true)
  }

  /** Whatever the outcome, a temporary file that was created has been removed. */
  lemma NoTempFileLeft(transfer: Transfer, parse: ParserKind -> ParseResult)
    ensures var o := GetMetadata(transfer, parse); o.tempCreated ==> o.tempRemoved
  {
  }

  /**
   A failed transfer calls no parser and yields the retrieval error; a completed one yields the
   extractor's report with the probe's total as the file size.
   */
  lemma TransferDecidesExtraction(transfer: Transfer, parse: ParserKind -> ParseResult)
    ensures var o := GetMetadata(transfer, parse);
      !transfer.Downloaded? ==> o.attempts == [] && o.report == Error(RetrieveErrorPrefix + transfer.cause)
    ensures var o := GetMetadata(transfer, parse);
      transfer.Downloaded? ==>
        |o.attempts| >= 1 && o.attempts[0] == Dispatch(transfer.ext)
        && (o.report.Meta? ==> o.report.fileSize == TotalSize(transfer.contentLength))
    ensures var o := GetMetadata(transfer, parse);
      transfer.Downloaded? ==>
        Run(o.report, o.attempts) == Extract(transfer.ext, TotalSize(transfer.contentLength), parse)
  {
  }

  /** Without a content-length header the extraction still runs, with a file size of 0. */
  lemma MissingSizeIsNotAnError(ext: string, parse: ParserKind -> ParseResult)
    ensures GetMetadata(Downloaded(None, ext), parse).report == Extract(ext, 0, parse).report
  {
  }
}

=== FILE: wrappers.dfy ===
/** The optional value used for attributes a parser may or may not expose. */
module Wrappers {

  /** `None` is an absent attribute; absence is distinct from any present value, zero included. */
  datatype Option<+T> = None | Some(value: T) {

    /** The encapsulated value, or `default` when absent (Python's `dict.get(key, default)`). */
    function GetOr(default: T): T {
      match this
      case Some(v) => v
      case None => default
    }
  }
}
